=== FILE: README.md ===
# Incident-report bot: report waterfall and entity extraction

This project models the two pieces of the incident-report bot that hold its
decision logic, and proves properties of the model.

- **The report waterfall** (`BookingDialog`, `booking_dialog.dfy`). This is a
  ten-step dialog. It runs in order: welcome, date, position, accident,
  people, casualties, details, end notice, hazard report, final. Each step
  reads the report under construction (the dialog's options) and the previous
  step's result. It answers with one action: a free-text prompt, a yes/no
  prompt, continue with a value, hand the date to the date resolver, or end
  the dialog with the report or with nothing.
  - `Advance` is one step, as a pure function.
  - `Transcript` runs the whole dialog over a sequence of user answers.
  - The class `Waterfall` is the framework's view: a step index and the
    options object, which the date step writes in place.
  - JavaScript truthiness is modelled exactly. `undefined`, `false` and `""`
    count as unset, so a stored `false` for the hazard-report answer is asked
    again.
  - A date is ambiguous when its tag set, as given by the timex parser, lacks
    `"definite"`. The parser is a parameter (`TimexTypes`).
- **Entity extraction** (`FlightBookingRecognizer`, `recognizer.dfy`).
  - `Recognizer` holds a recognizer only when its configuration has all three
    credentials.
  - `Extract` is the shared body of the `get*Entities` helpers, parameterised
    by entity key. It keeps the script's unguarded indexing. Where the script
    would raise a `TypeError`, the model returns `Failure(TypeError)`; it does
    not forbid such inputs with a precondition. `WellFormedFor` is exactly the
    set of inputs that do not raise. `ExtractGuarded` is an independent
    reference version that checks every lookup, and a lemma shows the two
    agree wherever the script does not raise.
  - `GetDateTime` returns the part of the first timex before its first `'T'`.

`Common` (`common.dfy`) holds `Option`, `Result`, the JavaScript values that
flow through the dialog (`undefined`, booleans, strings) and truthiness.

The model follows the code as written. Some of its behaviour is easy to miss:

- Only `origin` is written into the report (dialogs/bookingDialog.js:51). The
  answers to the later prompts are passed to the next step and then dropped.
  A confirmed dialog therefore returns the options it was started with, with
  `origin` set to the answer to the welcome prompt
  (`EndPayloadIsOptionsWithOrigin`).
- There is no separate final confirmation prompt. The final step consumes the
  result of the hazard-report step. With an empty report the dialog issues
  seven prompts and one delegation to the date resolver, and sends two
  notices (the welcome card and the end notice), as `EmptyReportTranscript`
  states.
- The extraction helpers index without guards. For example, a `From` match
  with no typed `From` list raises (`FromWithoutTypedListRaises`); it does not
  return the text with no qualifier.
- The people, details and inform helpers read the `Position` entity, exactly
  as the position helper does (`PeopleDetailsInformEqualPosition`). This looks
  like a copy-and-paste slip. The model keeps it because the code gives no
  clue which key each helper was meant to read.
- The hazard-report step passes on any truthy preset answer
  (dialogs/bookingDialog.js:117-123), but the final step ends with the report
  only for the boolean `true` (dialogs/bookingDialog.js:130). A preset answer
  that is a non-empty string, which is what the inform helper extracts, is
  therefore passed on and the dialog ends with no report
  (`PresetTextInformEndsWithoutReport`).

## Model

| member | source | states |
|---|---|---|
| `BookingDialog.OrderIsFixed` | dialogs/bookingDialog.js:25-36 | the waterfall has exactly ten steps, each once, from welcome to final |
| `BookingDialog.Advance` | dialogs/bookingDialog.js:41-135 | the welcome step sends the card and asks an open text prompt; only the date step changes the report, and only its `origin`; only the final step ends the dialog, and its payload is the report; notices come only from the welcome and end steps; a skippable question is asked only when its field is falsy; a delegation happens only for an unset or ambiguous date |
| `BookingDialog.PresetTextFieldSkipsPrompt` | dialogs/bookingDialog.js:58-107 | a truthy position, people or details field is continued with unchanged and not prompted for; a falsy one gets a text prompt |
| `BookingDialog.ConfirmStepsAlwaysPrompt` | dialogs/bookingDialog.js:69-95 | the accident and casualty steps always issue their yes/no prompt, whatever the report holds |
| `BookingDialog.DateTimeStepDecision` | dialogs/bookingDialog.js:47-56 | the date step stores the previous result in `origin`; it delegates with the date as seed when the date is unset or ambiguous, and otherwise continues with the date |
| `BookingDialog.IsAmbiguous` | dialogs/bookingDialog.js:137-140 | a date is ambiguous exactly when the parser's tag set for it lacks "definite" |
| `BookingDialog.AmbiguityDecidesDelegation` | dialogs/bookingDialog.js:137-140 | a set date is delegated exactly when its tag set lacks "definite" |
| `BookingDialog.InformStepDecision` | dialogs/bookingDialog.js:114-124 | the hazard-report step continues with a truthy answer and otherwise prompts yes/no, so a stored `false` is asked again |
| `BookingDialog.EndNoticeNeverPrompts` | dialogs/bookingDialog.js:109-112 | the end step sends its notice and continues with no value, leaving the report as it was |
| `BookingDialog.FinalStepDecision` | dialogs/bookingDialog.js:129-135 | the final step ends with the report exactly when the result is boolean `true`, and with nothing otherwise |
| `BookingDialog.Transcript` | dialogs/bookingDialog.js:25-36 | a run from step `i` has at most `10 - i` turns, its first turn is that step's outcome, and its `k`-th turn is step `i + k` of the fixed order |
| `BookingDialog.DialogReachesEnd` | dialogs/bookingDialog.js:25-36 | given one answer per remaining step that can wait (every step before the final one except the end notice, which always moves on), the dialog runs every remaining step and its last turn ends the dialog |
| `BookingDialog.EightAnswersCompleteTheDialog` | dialogs/bookingDialog.js:25-36 | from the first step, eight answers always suffice: the run has all ten turns and its last turn, the final step, ends the dialog |
| `BookingDialog.ReportFixedAfterDateStep` | dialogs/bookingDialog.js:58-135 | from the position step on, no step changes the report and any payload returned is that report |
| `BookingDialog.EndPayloadIsOptionsWithOrigin` | dialogs/bookingDialog.js:47-135 | a returned report is the starting options with `origin` set to the answer to the welcome prompt |
| `BookingDialog.PresetTextInformEndsWithoutReport` | dialogs/bookingDialog.js:114-135 | a preset hazard-report answer that is truthy but not boolean `true` is passed on without a prompt, and the dialog then ends with no report |
| `BookingDialog.AdvanceRespectsPreset` | dialogs/bookingDialog.js:47-124 | no step asks for a field that is already set, or delegates a definite date, even after `origin` changes |
| `BookingDialog.PresetFieldsNeverPrompted` | dialogs/bookingDialog.js:47-124 | over a whole run, a field set beforehand is never asked for, and a definite preset date never goes to the resolver |
| `BookingDialog.AdvanceAsksOwnQuestion` | dialogs/bookingDialog.js:58-124 | each question is asked only by its own step: position, accident, people, casualties, details or hazard report |
| `BookingDialog.AsksOnlyAtOwnStep` | dialogs/bookingDialog.js:25-124 | over a whole run, every turn that asks a question is that question's own step |
| `BookingDialog.QuestionAskedAtMostOnce` | dialogs/bookingDialog.js:25-124 | although no answer is stored, no question is asked twice in one run, because each step runs once |
| `BookingDialog.EmptyReportTranscript` | dialogs/bookingDialog.js:41-135 | with an empty report, the dialog runs: welcome card and prompt, delegation, position, accident, people, casualties, details, end notice, hazard question, end; the payload is the report with `origin` only, and only when the last answer is `true` |
| `BookingDialog.Waterfall.constructor` | dialogs/bookingDialog.js:19-39 | a new dialog starts at the first step with the caller's options |
| `BookingDialog.Waterfall.RunStep` | dialogs/bookingDialog.js:41-135 | running the next step gives the outcome of `Advance` and moves past the step; the options change only by the date step's write to `origin`; the dialog ends exactly when the last step has run |
| `FlightBookingRecognizer.LuisIsConfigured` | dialogs/flightBookingRecognizer.js:8-8 | the configuration is usable exactly when it is present and its application id, endpoint key and endpoint are all non-empty strings |
| `FlightBookingRecognizer.Recognizer.IsConfigured` | dialogs/flightBookingRecognizer.js:20-22 | the recognizer is configured exactly when the constructor built one |
| `FlightBookingRecognizer.Recognizer.constructor` | dialogs/flightBookingRecognizer.js:7-22 | the recognizer is configured iff the configuration is present and its application id, endpoint key and endpoint are all non-empty |
| `FlightBookingRecognizer.Extract` | dialogs/flightBookingRecognizer.js:32-42 | no instance list gives text and qualifier both undefined; the text is the first instance's text; a qualifier appears exactly when the text is non-empty and the first typed entry has an `Airport` list whose first element is non-empty, and it is `Airport[0][0]`; the call raises exactly when the input is not well formed |
| `FlightBookingRecognizer.ExtractGuarded` | dialogs/flightBookingRecognizer.js:32-42 | the guarded reference reading never raises; no instance list gives both undefined, and a qualifier needs a non-empty text |
| `FlightBookingRecognizer.ExtractAgreesWithGuarded` | dialogs/flightBookingRecognizer.js:32-42 | where the script's extraction does not raise it returns the guarded result, and it does not raise exactly on well-formed input |
| `FlightBookingRecognizer.FromWithoutTypedListRaises` | dialogs/flightBookingRecognizer.js:37-39 | a `From` match with no typed `From` list raises, where the guarded reading returns the text with no qualifier |
| `FlightBookingRecognizer.GetFromEntities` | dialogs/flightBookingRecognizer.js:32-42 | reads the `From` entity: raises exactly when the result is not well formed for `From`, and otherwise returns the guarded reading of `From` |
| `FlightBookingRecognizer.GetToEntities` | dialogs/flightBookingRecognizer.js:44-54 | reads the `To` entity: raises exactly when the result is not well formed for `To`, and otherwise returns the guarded reading of `To` |
| `FlightBookingRecognizer.GetPositionEntities` | dialogs/flightBookingRecognizer.js:56-66 | reads the `Position` entity: raises exactly when the result is not well formed for `Position`, and otherwise returns the guarded reading of `Position` |
| `FlightBookingRecognizer.GetPeopleEntities` | dialogs/flightBookingRecognizer.js:83-93 | reads the `Position` entity: raises exactly when the result is not well formed for `Position`, and otherwise returns the guarded reading of `Position` |
| `FlightBookingRecognizer.GetDetailsEntities` | dialogs/flightBookingRecognizer.js:95-105 | reads the `Position` entity: raises exactly when the result is not well formed for `Position`, and otherwise returns the guarded reading of `Position` |
| `FlightBookingRecognizer.GetInformEntities` | dialogs/flightBookingRecognizer.js:107-117 | reads the `Position` entity: raises exactly when the result is not well formed for `Position`, and otherwise returns the guarded reading of `Position` |
| `FlightBookingRecognizer.PeopleDetailsInformEqualPosition` | dialogs/flightBookingRecognizer.js:83-117 | the people, details and inform helpers return what the position helper returns, for every result |
| `FlightBookingRecognizer.DatePart` | dialogs/flightBookingRecognizer.js:79-79 | `split('T')[0]` gives a prefix of the timex with no `'T'`, followed in the timex by a `'T'` or by nothing |
| `FlightBookingRecognizer.DatePartUnique` | dialogs/flightBookingRecognizer.js:79-79 | those three conditions determine the date part uniquely |
| `FlightBookingRecognizer.DatePartWithoutT` | dialogs/flightBookingRecognizer.js:79-79 | a timex with no `'T'` is returned whole |
| `FlightBookingRecognizer.GetDateTime` | dialogs/flightBookingRecognizer.js:72-81 | undefined iff the `datetime` list is missing or empty, or its first timex list is missing or empty, or the first timex is empty; otherwise the part of the first timex before its first `'T'` |
| `FlightBookingRecognizer.TimeOnlyTimexYieldsEmptyDate` | dialogs/flightBookingRecognizer.js:79-80 | a timex that starts with `'T'` yields the empty string, which the dialog treats as an unset date |
| `FlightBookingRecognizer.DateTimeExample` | dialogs/flightBookingRecognizer.js:72-81 | "2023-11-15T08:00" yields "2023-11-15" |

## Left out

- The dialog framework is not modelled: `WaterfallDialog`, `addDialog`, `prompt`, `next`, `beginDialog`, `endDialog`, `sendActivity`, `MessageFactory` and the welcome Adaptive Card. Steps return `Action` and `Notice` values instead of calling the framework.
- The prompt texts are opaque `Question` constants; their wording is not modelled.
- Timex parsing (`TimexProperty`) belongs to an external library. Its output tag set is a parameter.
- The date resolver and the cancel/help dialog are not part of this model. Whatever the resolver returns re-enters as the next step's result, which is one of the inputs `Transcript` takes.
- `Transcript` states how the framework chains steps: a continue feeds the next step at once, and a prompt or delegation waits for the next input. The framework's own loop, dialog stack and state persistence are not modelled.
- `async`/`await` scheduling is not modelled. Every step is one atomic transition.
- Building the `LuisRecognizer` and `executeLuisQuery` are network calls and are not modelled. `Recognizer` records the configuration it would use.
- JavaScript values are limited to `undefined`, booleans and strings, the values the prompts and the date resolver produce. Numbers, `null` and objects as field values are not modelled.
- The `entities` and `$instance` objects are assumed present. Reading from an absent one would raise in the script, and that case is not modelled.
- An instance's `text` is assumed to be a string.
- The helpers name their result fields differently (`from`, `to`, `airport`). The model uses one shape, `Extracted(value, airport)`.
- `Waterfall.RunStep` writes `origin` into the class's own copy of the options. The script writes into the caller's options object in place, and that aliasing is not captured.

=== FILE: booking_dialog.dfy ===
/**
 * The incident-report waterfall: ten steps run in a fixed order, each of which
 * looks at the report under construction (the dialog's options) and at the
 * previous step's result, and answers with exactly one action.
 */
module BookingDialog {
  import opened Common

  /** The report being filled in; an unset field holds `Undefined`. */
  datatype Report = Report(
    origin: JsValue,
    date: JsValue,
    position: JsValue,
    accident: JsValue,
    people: JsValue,
    peopleDie: JsValue,
    details: JsValue,
    inform: JsValue)

  /** The report with nothing filled in. */
  const EmptyReport := Report(Undefined, Undefined, Undefined, Undefined, Undefined, Undefined, Undefined, Undefined)

  /** The steps of the waterfall. */
  datatype Step = Welcome | DateTime | Position | Accident | People | PeopleDie | Details | EndNotice | Inform | Final

  /** The order in which the waterfall runs its steps. */
  const Order: seq<Step> := [Welcome, DateTime, Position, Accident, People, PeopleDie, Details, EndNotice, Inform, Final]

  /** The fixed questions; their wording is not part of the model. */
  datatype Question = PositionQuestion | AccidentQuestion | PeopleQuestion | PeopleDieQuestion | DetailsQuestion | InformQuestion

  /** One-way messages sent to the user before a step's action. */
  datatype Notice = WelcomeCard | IncidentFiledNotice

  /** What a step hands back to the framework. */
  datatype Action =
    | PromptText(question: Option<Question>)   // free-text prompt; the welcome prompt has no message
    | PromptConfirm(confirm: Question)         // yes/no prompt
    | Continue(value: JsValue)                  // run the next step at once with this result
    | Delegate(seed: JsValue)                   // begin the date resolver with this date
    | End(payload: Option<Report>)              // end the dialog, returning the report or nothing
  {
    /** The actions after which the dialog waits for the user (or the date resolver). */
    predicate Suspends()
    {
      PromptText? || PromptConfirm? || Delegate?
    }
  }

  /** The outcome of running one step: the report afterwards, a notice, and the action. */
  datatype Turn = Turn(step: Step, report: Report, notice: Option<Notice>, action: Action)

  /**
   * The tag set that the timex parser assigns to a date value
   * (for instance "date" and "definite"); the parser itself is not modelled.
   */
  type TimexTypes = JsValue -> set<string>

  /** A date is ambiguous when its tags do not include "definite". */
  predicate IsAmbiguous(types: set<string>)
  {
    "definite" !in types
  }

  /** True when `a` asks the user the given question. */
  predicate Asks(a: Action, q: Question)
  {
    a == PromptText(Some(q)) || a == PromptConfirm(q)
  }

  /** Action `a` returns no report other than `report`. */
  predicate ReturnsOnly(a: Action, report: Report)
  {
    a.End? && a.payload.Some? ==> a.payload.value == report
  }

  /** The reports `a` and `b` agree on every field except `origin`. */
  predicate SameExceptOrigin(a: Report, b: Report)
  {
    a == b.(origin := a.origin)
  }

  /**
   * Runs one step on the report and the previous step's result.
   * Only the date step changes the report: it stores the result in `origin`.
   */
  function Advance(step: Step, report: Report, result: JsValue, types: TimexTypes): (t: Turn)
    ensures t.step == step
    ensures t.report == if step == DateTime then report.(origin := result) else report
    ensures t.action.End? <==> step == Final
    ensures t.action.End? && t.action.payload.Some? ==> t.action.payload.value == t.report
    ensures t.notice.Some? <==> step in {Welcome, EndNotice}
    ensures Asks(t.action, PositionQuestion) ==> !Truthy(report.position)
    ensures Asks(t.action, PeopleQuestion) ==> !Truthy(report.people)
    ensures Asks(t.action, DetailsQuestion) ==> !Truthy(report.details)
    ensures Asks(t.action, InformQuestion) ==> !Truthy(report.inform)
    ensures t.action.Delegate? ==> !Truthy(report.date) || IsAmbiguous(types(report.date))
    ensures step == Welcome ==> t.notice == Some(WelcomeCard) && t.action == PromptText(None)
  {
    match step
    case Welcome =>
      Turn(step, report, Some(WelcomeCard), PromptText(None))
    case DateTime =>
      var r := report.(origin := result);
      if !Truthy(r.date) || IsAmbiguous(types(r.date)) then Turn(step, r, None, Delegate(r.date))
      else Turn(step, r, None, Continue(r.date))
    case Position =>
      if !Truthy(report.position) then Turn(step, report, None, PromptText(Some(PositionQuestion)))
      else Turn(step, report, None, Continue(report.position))
    case Accident =>
      Turn(step, report, None, PromptConfirm(AccidentQuestion))
    case People =>
      if !Truthy(report.people) then Turn(step, report, None, PromptText(Some(PeopleQuestion)))
      else Turn(step, report, None, Continue(report.people))
    case PeopleDie =>
      Turn(step, report, None, PromptConfirm(PeopleDieQuestion))
    case Details =>
      if !Truthy(report.details) then Turn(step, report, None, PromptText(Some(DetailsQuestion)))
      else Turn(step, report, None, Continue(report.details))
    case EndNotice =>
      Turn(step, report, Some(IncidentFiledNotice), Continue(Undefined))
    case Inform =>
      if !Truthy(report.inform) then Turn(step, report, None, PromptConfirm(InformQuestion))
      else Turn(step, report, None, Continue(report.inform))
    case Final =>
      if result == Bool(true) then Turn(step, report, None, End(Some(report)))
      else Turn(step, report, None, End(None))
  }

  /** The waterfall has exactly ten steps, each once, from welcome to final. */
  lemma OrderIsFixed()
    ensures |Order| == 10
    ensures forall s: Step :: s in Order
    ensures forall i, j :: 0 <= i < j < |Order| ==> Order[i] != Order[j]
    ensures Order[0] == Welcome && Order[|Order| - 1] == Final
  {
    forall s: Step ensures s in Order {
      match s
      case Welcome => assert Order[0] == s;
      case DateTime => assert Order[1] == s;
      case Position => assert Order[2] == s;
      case Accident => assert Order[3] == s;
      case People => assert Order[4] == s;
      case PeopleDie => assert Order[5] == s;
      case Details => assert Order[6] == s;
      case EndNotice => assert Order[7] == s;
      case Inform => assert Order[8] == s;
      case Final => assert Order[9] == s;
    }
  }

  /** A truthy position, people or details field is passed on unchanged, with no prompt. */
  lemma PresetTextFieldSkipsPrompt(step: Step, report: Report, result: JsValue, types: TimexTypes)
    requires step in {Position, People, Details}
    ensures var field := match step case Position => report.position case People => report.people case _ => report.details;
            var q := match step case Position => PositionQuestion case People => PeopleQuestion case _ => DetailsQuestion;
            var t := Advance(step, report, result, types);
            t.notice == None &&
            (Truthy(field) ==> t.action == Continue(field)) &&
            (!Truthy(field) ==> t.action == PromptText(Some(q)))
  {
  }

  /** The accident and casualty questions are asked whatever the report holds. */
  lemma ConfirmStepsAlwaysPrompt(report: Report, result: JsValue, types: TimexTypes)
    ensures Advance(Accident, report, result, types).action == PromptConfirm(AccidentQuestion)
    ensures Advance(PeopleDie, report, result, types).action == PromptConfirm(PeopleDieQuestion)
  {
  }

  /**
   * The date step records the previous result as `origin`, delegates to the date
   * resolver (seeded with the date) when the date is unset or ambiguous, and
   * otherwise passes the date on.
   */
  lemma DateTimeStepDecision(report: Report, result: JsValue, types: TimexTypes)
    ensures var t := Advance(DateTime, report, result, types);
            t.report.origin == result &&
            (!Truthy(report.date) || IsAmbiguous(types(report.date)) ==> t.action == Delegate(report.date)) &&
            (Truthy(report.date) && !IsAmbiguous(types(report.date)) ==> t.action == Continue(report.date))
  {
  }

  /** A set date goes to the date resolver exactly when its tags lack "definite". */
  lemma AmbiguityDecidesDelegation(report: Report, result: JsValue, types: TimexTypes)
    requires Truthy(report.date)
    ensures Advance(DateTime, report, result, types).action.Delegate? <==> "definite" !in types(report.date)
  {
  }

  /** The inform question is skipped only for a truthy value: a stored `false` is asked again. */
  lemma InformStepDecision(report: Report, result: JsValue, types: TimexTypes)
    ensures var t := Advance(Inform, report, result, types);
            (Truthy(report.inform) ==> t.action == Continue(report.inform)) &&
            (!Truthy(report.inform) ==> t.action == PromptConfirm(InformQuestion))
    ensures report.inform == Bool(false) ==> Advance(Inform, report, result, types).action == PromptConfirm(InformQuestion)
  {
  }

  /** The end notice is sent once and the waterfall moves on with no value. */
  lemma EndNoticeNeverPrompts(report: Report, result: JsValue, types: TimexTypes)
    ensures Advance(EndNotice, report, result, types) == Turn(EndNotice, report, Some(IncidentFiledNotice), Continue(Undefined))
  {
  }

  /** The final step returns the report exactly when the result is boolean true. */
  lemma FinalStepDecision(report: Report, result: JsValue, types: TimexTypes)
    ensures var a := Advance(Final, report, result, types).action;
            (result == Bool(true) ==> a == End(Some(report))) &&
            (result != Bool(true) ==> a == End(None))
  {
  }

  /**
   * The whole dialog, from step `i` on: each `Continue` feeds its value to the
   * next step at once, each suspending action takes the next of the user's
   * `inputs` as the next step's result, and the transcript stops when the
   * dialog ends or the inputs run out.
   */
  function Transcript(i: nat, report: Report, result: JsValue, inputs: seq<JsValue>, types: TimexTypes): (ts: seq<Turn>)
    requires i <= |Order|
    decreases |Order| - i, 1
    ensures |ts| <= |Order| - i
    ensures i < |Order| ==> ts != [] && ts[0] == Advance(Order[i], report, result, types)
    ensures forall k :: 0 <= k < |ts| ==> ts[k].step == Order[i + k]
  {
    if i == |Order| then []
    else
      var t := Advance(Order[i], report, result, types);
      [t] + After(i, t, inputs, types)
  }

  /** What follows turn `t` of step `i` in the transcript. */
  function After(i: nat, t: Turn, inputs: seq<JsValue>, types: TimexTypes): (ts: seq<Turn>)
    requires i < |Order|
    decreases |Order| - i, 0
    ensures |ts| <= |Order| - i - 1
    ensures forall k :: 0 <= k < |ts| ==> ts[k].step == Order[i + 1 + k]
  {
    if t.action.Continue? then Transcript(i + 1, t.report, t.action.value, inputs, types)
    else if t.action.Suspends() && inputs != [] then Transcript(i + 1, t.report, inputs[0], inputs[1..], types)
    else []
  }

  /**
   * The number of steps from `i` on that may wait for an answer: every step
   * before the final one except the end notice, which always moves on.
   */
  function Waits(i: nat): nat
    requires i <= |Order|
    decreases |Order| - i
  {
    if i >= |Order| - 1 then 0
    else (if Order[i] == EndNotice then 0 else 1) + Waits(i + 1)
  }

  /**
   * Given one user input per step that can wait, the dialog runs every
   * remaining step and ends: no field's absence blocks it.
   */
  lemma {:induction false} DialogReachesEnd(i: nat, report: Report, result: JsValue, inputs: seq<JsValue>, types: TimexTypes)
    requires i < |Order|
    requires |inputs| >= Waits(i)
    ensures var ts := Transcript(i, report, result, inputs, types);
            |ts| == |Order| - i && ts[|ts| - 1].action.End?
    decreases |Order| - i
  {
    var t := Advance(Order[i], report, result, types);
    var ts := Transcript(i, report, result, inputs, types);
    var next := After(i, t, inputs, types);
    assert ts == [t] + next;
    if i < |Order| - 1 {
      OrderIsFixed();
      assert Order[i] != Order[|Order| - 1];
      if t.action.Continue? {
        DialogReachesEnd(i + 1, t.report, t.action.value, inputs, types);
        assert next == Transcript(i + 1, t.report, t.action.value, inputs, types);
      } else {
        assert Order[i] != EndNotice;
        DialogReachesEnd(i + 1, t.report, inputs[0], inputs[1..], types);
        assert next == Transcript(i + 1, t.report, inputs[0], inputs[1..], types);
      }
      assert ts[|ts| - 1] == next[|next| - 1];
    }
  }

  /**
   * From the first step, eight answers (seven prompts and the date resolver)
   * are always enough: the run has all ten turns and its last one ends it.
   */
  lemma EightAnswersCompleteTheDialog(report: Report, inputs: seq<JsValue>, types: TimexTypes)
    requires |inputs| >= 8
    ensures var ts := Transcript(0, report, Undefined, inputs, types);
            |ts| == 10 && ts[9].step == Final && ts[9].action.End?
  {
    assert Waits(0) == 8;
    DialogReachesEnd(0, report, Undefined, inputs, types);
  }

  /** Every turn of `ts` holds `report` and returns no other report. */
  predicate AllKeep(report: Report, ts: seq<Turn>)
  {
    forall k :: 0 <= k < |ts| ==> ts[k].report == report && ReturnsOnly(ts[k].action, report)
  }

  /** From the position step on, no step changes the report. */
  lemma {:induction false} ReportFixedAfterDateStep(i: nat, report: Report, result: JsValue, inputs: seq<JsValue>, types: TimexTypes)
    requires 2 <= i <= |Order|
    ensures AllKeep(report, Transcript(i, report, result, inputs, types))
    decreases |Order| - i
  {
    if i < |Order| {
      var t := Advance(Order[i], report, result, types);
      var ts := Transcript(i, report, result, inputs, types);
      var next := After(i, t, inputs, types);
      assert ts == [t] + next;
      OrderIsFixed();
      assert Order[i] != Order[1];
      assert t.report == report;
      if t.action.Continue? {
        ReportFixedAfterDateStep(i + 1, t.report, t.action.value, inputs, types);
      } else if t.action.Suspends() && inputs != [] {
        ReportFixedAfterDateStep(i + 1, t.report, inputs[0], inputs[1..], types);
      }
      assert AllKeep(report, next);
      forall k | 1 <= k < |ts| ensures ts[k].report == report && ReturnsOnly(ts[k].action, report) {
        assert ts[k] == next[k - 1];
      }
    }
  }

  /**
   * A dialog that ends with a report returns the options it started with,
   * with `origin` set to the user's answer to the welcome prompt and every
   * other field untouched.
   */
  lemma EndPayloadIsOptionsWithOrigin(options: Report, inputs: seq<JsValue>, types: TimexTypes)
    requires inputs != []
    ensures var ts := Transcript(0, options, Undefined, inputs, types);
            forall k :: 0 <= k < |ts| && ts[k].action.End? && ts[k].action.payload.Some? ==>
              ts[k].action.payload.value == options.(origin := inputs[0])
  {
    var ts := Transcript(0, options, Undefined, inputs, types);
    var t0 := Advance(Welcome, options, Undefined, types);
    var ts1 := Transcript(1, options, inputs[0], inputs[1..], types);
    assert ts == [t0] + ts1;
    var t1 := Advance(DateTime, options, inputs[0], types);
    var r1 := t1.report;
    var rest := After(1, t1, inputs[1..], types);
    assert ts1 == [t1] + rest;
    if t1.action.Continue? {
      ReportFixedAfterDateStep(2, r1, t1.action.value, inputs[1..], types);
    } else if |inputs| > 1 {
      ReportFixedAfterDateStep(2, r1, inputs[1], inputs[2..], types);
    }
    assert AllKeep(r1, rest);
    forall k | 2 <= k < |ts| ensures ReturnsOnly(ts[k].action, r1) {
      assert ts[k] == rest[k - 2];
    }
  }

  /**
   * A preset hazard-report answer that is truthy but not the boolean `true`
   * (such as the text an extractor returns) is passed on without a prompt, and
   * the final step, which tests for `true` itself, then ends the dialog with
   * no report.
   */
  lemma PresetTextInformEndsWithoutReport(report: Report, result: JsValue, inputs: seq<JsValue>, types: TimexTypes)
    requires Truthy(report.inform) && report.inform != Bool(true)
    ensures Transcript(8, report, result, inputs, types) ==
            [Turn(Inform, report, None, Continue(report.inform)), Turn(Final, report, None, End(None))]
  {
    var t9 := Transcript(9, report, report.inform, inputs, types);
    assert t9 == [Turn(Final, report, None, End(None))];
  }

  /**
   * Action `a` respects what `report` already holds: it does not ask for a
   * field that is set, nor send a definite date to the resolver.
   */
  predicate RespectsPreset(report: Report, types: TimexTypes, a: Action)
  {
    (Truthy(report.position) ==> !Asks(a, PositionQuestion)) &&
    (Truthy(report.people) ==> !Asks(a, PeopleQuestion)) &&
    (Truthy(report.details) ==> !Asks(a, DetailsQuestion)) &&
    (Truthy(report.inform) ==> !Asks(a, InformQuestion)) &&
    (Truthy(report.date) && !IsAmbiguous(types(report.date)) ==> !a.Delegate?)
  }

  /** Each step respects what the report holds, and so does every report that differs only in `origin`. */
  lemma AdvanceRespectsPreset(step: Step, report: Report, result: JsValue, types: TimexTypes, other: Report)
    requires SameExceptOrigin(other, report)
    ensures RespectsPreset(other, types, Advance(step, report, result, types).action)
  {
  }

  /** Every turn of `ts` respects what `preset` holds. */
  predicate AllRespectPreset(preset: Report, types: TimexTypes, ts: seq<Turn>)
  {
    forall k :: 0 <= k < |ts| ==> RespectsPreset(preset, types, ts[k].action)
  }

  /**
   * A field that is already set (truthy) in `preset`, the report as it stood
   * before the run (it differs from `report` at most in `origin`), is never
   * asked for again during the run, and a definite preset date never goes to
   * the date resolver.
   */
  lemma {:induction false} PresetFieldsNeverPrompted(i: nat, report: Report, result: JsValue, inputs: seq<JsValue>, types: TimexTypes, preset: Report)
    requires i <= |Order|
    requires SameExceptOrigin(report, preset)
    ensures AllRespectPreset(preset, types, Transcript(i, report, result, inputs, types))
    decreases |Order| - i
  {
    if i < |Order| {
      var t := Advance(Order[i], report, result, types);
      var ts := Transcript(i, report, result, inputs, types);
      var next := After(i, t, inputs, types);
      assert ts == [t] + next;
      AdvanceRespectsPreset(Order[i], report, result, types, preset);
      if t.action.Continue? {
        PresetFieldsNeverPrompted(i + 1, t.report, t.action.value, inputs, types, preset);
      } else if t.action.Suspends() && inputs != [] {
        PresetFieldsNeverPrompted(i + 1, t.report, inputs[0], inputs[1..], types, preset);
      }
      assert AllRespectPreset(preset, types, next);
      forall k | 1 <= k < |ts| ensures RespectsPreset(preset, types, ts[k].action) {
        assert ts[k] == next[k - 1];
      }
    }
  }

  /** The step that owns question `q`: the only step that may ask it. */
  function QuestionStep(q: Question): Step
  {
    match q
    case PositionQuestion => Position
    case AccidentQuestion => Accident
    case PeopleQuestion => People
    case PeopleDieQuestion => PeopleDie
    case DetailsQuestion => Details
    case InformQuestion => Inform
  }

  /** A step asks no question but its own. */
  lemma AdvanceAsksOwnQuestion(step: Step, report: Report, result: JsValue, types: TimexTypes, q: Question)
    ensures Asks(Advance(step, report, result, types).action, q) ==> step == QuestionStep(q)
  {
  }

  /** Every turn of `ts` that asks a question is that question's own step. */
  predicate AllAskAtOwnStep(ts: seq<Turn>)
  {
    forall k, q :: 0 <= k < |ts| && Asks(ts[k].action, q) ==> ts[k].step == QuestionStep(q)
  }

  /** Over a whole run, a question is asked only by the step that owns it. */
  lemma {:induction false} AsksOnlyAtOwnStep(i: nat, report: Report, result: JsValue, inputs: seq<JsValue>, types: TimexTypes)
    requires i <= |Order|
    ensures AllAskAtOwnStep(Transcript(i, report, result, inputs, types))
    decreases |Order| - i
  {
    if i < |Order| {
      var t := Advance(Order[i], report, result, types);
      var ts := Transcript(i, report, result, inputs, types);
      var next := After(i, t, inputs, types);
      assert ts == [t] + next;
      forall q | Asks(t.action, q) ensures t.step == QuestionStep(q) {
        AdvanceAsksOwnQuestion(Order[i], report, result, types, q);
      }
      if t.action.Continue? {
        AsksOnlyAtOwnStep(i + 1, t.report, t.action.value, inputs, types);
      } else if t.action.Suspends() && inputs != [] {
        AsksOnlyAtOwnStep(i + 1, t.report, inputs[0], inputs[1..], types);
      }
      assert AllAskAtOwnStep(next);
      forall k, q | 1 <= k < |ts| && Asks(ts[k].action, q) ensures ts[k].step == QuestionStep(q) {
        assert ts[k] == next[k - 1];
      }
    }
  }

  /**
   * The answers are never stored, yet no question is asked twice in one run:
   * each step runs once, and only its own step asks a question.
   */
  lemma QuestionAskedAtMostOnce(i: nat, report: Report, result: JsValue, inputs: seq<JsValue>, types: TimexTypes, q: Question)
    requires i <= |Order|
    ensures var ts := Transcript(i, report, result, inputs, types);
            forall k, l :: 0 <= k < l < |ts| && Asks(ts[k].action, q) ==> !Asks(ts[l].action, q)
  {
    var ts := Transcript(i, report, result, inputs, types);
    AsksOnlyAtOwnStep(i, report, result, inputs, types);
    OrderIsFixed();
    forall k, l | 0 <= k < l < |ts| && Asks(ts[k].action, q) ensures !Asks(ts[l].action, q) {
      assert ts[k].step == QuestionStep(q);
      assert ts[l].step == Order[i + l] != Order[i + k] == ts[k].step;
    }
  }

  /**
   * With nothing known beforehand, the dialog sends the welcome card, prompts,
   * hands the date to the resolver, asks position, accident, people, casualties
   * and details, sends the end notice, asks whether to report the hazard and
   * ends: seven prompts and one delegation, eight answers in all.
   */
  lemma EmptyReportTranscript(inputs: seq<JsValue>, types: TimexTypes)
    requires |inputs| == 8
    ensures var ts := Transcript(0, EmptyReport, Undefined, inputs, types);
            |ts| == 10 &&
            ts[0].notice == Some(WelcomeCard) && ts[0].action == PromptText(None) &&
            ts[1].action == Delegate(Undefined) &&
            ts[2].action == PromptText(Some(PositionQuestion)) &&
            ts[3].action == PromptConfirm(AccidentQuestion) &&
            ts[4].action == PromptText(Some(PeopleQuestion)) &&
            ts[5].action == PromptConfirm(PeopleDieQuestion) &&
            ts[6].action == PromptText(Some(DetailsQuestion)) &&
            ts[7].notice == Some(IncidentFiledNotice) && ts[7].action == Continue(Undefined) &&
            ts[8].action == PromptConfirm(InformQuestion) &&
            ts[9].action == (if inputs[7] == Bool(true) then End(Some(EmptyReport.(origin := inputs[0]))) else End(None))
  {
    var r := EmptyReport.(origin := inputs[0]);
    var t9 := Transcript(9, r, inputs[7], [], types);
    var t8 := Transcript(8, r, Undefined, inputs[7..], types);
    assert t8 == [t8[0]] + t9;
    var t7 := Transcript(7, r, inputs[6], inputs[7..], types);
    assert t7 == [t7[0]] + t8;
    var t6 := Transcript(6, r, inputs[5], inputs[6..], types);
    assert t6 == [t6[0]] + t7;
    var t5 := Transcript(5, r, inputs[4], inputs[5..], types);
    assert t5 == [t5[0]] + t6;
    var t4 := Transcript(4, r, inputs[3], inputs[4..], types);
    assert t4 == [t4[0]] + t5;
    var t3 := Transcript(3, r, inputs[2], inputs[3..], types);
    assert t3 == [t3[0]] + t4;
    var t2 := Transcript(2, r, inputs[1], inputs[2..], types);
    assert t2 == [t2[0]] + t3;
    var t1 := Transcript(1, EmptyReport, inputs[0], inputs[1..], types);
    assert t1 == [t1[0]] + t2;
    var t0 := Transcript(0, EmptyReport, Undefined, inputs, types);
    assert t0 == [t0[0]] + t1;
  }

  /**
   * The waterfall as the framework runs it: the index of the next step and the
   * options object that every step reads and the date step writes.
   */
  class Waterfall {
    var index: nat
    var options: Report
    const types: TimexTypes

    /** Begins the dialog on the options its caller passes in. */
    constructor (options: Report, types: TimexTypes)
      ensures index == 0 && this.options == options && this.types == types
    {
      index := 0;
      this.options := options;
      this.types := types;
    }

    /**
     * Runs the next step on the previous step's result and moves past it.
     * Only the date step changes the options (it records `origin`), and the
     * dialog ends exactly when the last step has run.
     */
    method RunStep(result: JsValue) returns (notice: Option<Notice>, action: Action)
      requires index < |Order|
      modifies this
      ensures index == old(index) + 1
      ensures Turn(Order[old(index)], options, notice, action) == Advance(Order[old(index)], old(options), result, types)
      ensures SameExceptOrigin(options, old(options))
      ensures Order[old(index)] != DateTime ==> options == old(options)
      ensures action.End? <==> index == |Order|
    {
      var t := Advance(Order[index], options, result, types);
      OrderIsFixed();
      options := t.report;
      notice := t.notice;
      action := t.action;
      index := index + 1;
    }
  }
}

=== FILE: common.dfy ===
/** Values shared by the report dialog and the entity extractor. */
module Common {

  /** An optional value: `None` stands for JavaScript's `undefined`. */
  datatype Option<+T> = None | Some(value: T)

  /** The outcome of an operation that can raise instead of returning. */
  datatype Result<+T, +E> = Success(value: T) | Failure(error: E)

  /**
   * The JavaScript values that flow through the dialog: what a text prompt
   * answers (a string), what a confirm prompt answers (a boolean), and
   * `undefined` (an unset report field, or the value `next()` passes on).
   */
  datatype JsValue = Undefined | Bool(b: bool) | Text(s: string)

  /** JavaScript truthiness: `undefined`, `false` and the empty string are falsy. */
  predicate Truthy(v: JsValue)
  {
    match v
    case Undefined => false
    case Bool(b) => b
    case Text(s) => s != ""
  }
}

=== FILE: recognizer.dfy ===
/**
 * Entity extraction from a language-understanding result: the report fields
 * a recognizer result can pre-fill, and the date part of its first timex.
 */
module FlightBookingRecognizer {
  import opened Common

  /** The recognizer's credentials; a missing setting is `None`. */
  datatype LuisConfig = LuisConfig(applicationId: Option<string>, endpointKey: Option<string>, endpoint: Option<string>)

  /** A setting is truthy when it is present and not the empty string. */
  predicate IsSet(setting: Option<string>)
  {
    setting.Some? && setting.value != ""
  }

  /** The condition the constructor tests before it builds the recognizer. */
  predicate LuisIsConfigured(config: Option<LuisConfig>)
  {
    config.Some? && IsSet(config.value.applicationId) && IsSet(config.value.endpointKey) && IsSet(config.value.endpoint)
  }

  /**
   * The extractor object: it holds a recognizer only when its configuration is
   * complete. Running the recognizer is a network call and is not modelled.
   */
  class Recognizer {
    const recognizer: Option<LuisConfig>

    /** Builds the recognizer only when every credential is present and non-empty. */
    constructor (config: Option<LuisConfig>)
      ensures IsConfigured() <==>
                config.Some? && IsSet(config.value.applicationId) && IsSet(config.value.endpointKey) && IsSet(config.value.endpoint)
      ensures IsConfigured() ==> recognizer == config
    {
      if LuisIsConfigured(config) {
        recognizer := config;
      } else {
        recognizer := None;
      }
    }

    /** True exactly when the constructor built a recognizer. */
    predicate IsConfigured()
    {
      recognizer.Some?
    }
  }

  /** One matched span under `$instance`: its raw text. */
  datatype InstanceEntry = InstanceEntry(text: string)

  /**
   * One typed entry under an entity key: its optional `Airport` sub-entity,
   * a list whose elements are lists of resolved values.
   */
  datatype TypedEntry = TypedEntry(airport: Option<seq<seq<string>>>)

  /** One `datetime` entity: its optional list of timex expressions. */
  datatype DateTimeEntry = DateTimeEntry(timex: Option<seq<string>>)

  /**
   * The `entities` object of a recognizer result: the `$instance` lists, the
   * typed lists, both keyed by entity name, and the optional `datetime` list.
   */
  datatype Entities = Entities(
    instance: map<string, seq<InstanceEntry>>,
    typed: map<string, seq<TypedEntry>>,
    datetime: Option<seq<DateTimeEntry>>)

  /** A recognizer result; only its entities are read. */
  datatype RecognizerResult = RecognizerResult(entities: Entities)

  /** The `TypeError` the script raises when it reads a property of `undefined`. */
  datatype Fault = TypeError

  /** What an extractor returns: the matched text and its `Airport` qualifier. */
  datatype Extracted = Extracted(value: Option<string>, airport: Option<string>)

  /**
   * The shape under which extraction for `key` does not raise: a present
   * instance list is non-empty, and when its first text is non-empty the typed
   * list is present and non-empty, and a present `Airport` list is non-empty.
   */
  predicate WellFormedFor(key: string, result: RecognizerResult)
  {
    var e := result.entities;
    key in e.instance ==>
      |e.instance[key]| > 0 &&
      (e.instance[key][0].text != "" ==>
        key in e.typed && |e.typed[key]| > 0 &&
        (e.typed[key][0].airport.Some? ==> |e.typed[key][0].airport.value| > 0))
  }

  /**
   * The extraction every `get*Entities` helper performs for its key, with
   * every unguarded index the script performs: it fails exactly where the
   * script would raise, and otherwise returns the first instance's text and,
   * when that text is non-empty and the first typed entry has an `Airport`
   * list, the first value of that list's first element.
   */
  function Extract(key: string, result: RecognizerResult): (r: Result<Extracted, Fault>)
    ensures r.Success? <==> WellFormedFor(key, result)
    ensures key !in result.entities.instance ==> r == Success(Extracted(None, None))
    ensures r.Success? && key in result.entities.instance ==>
              r.value.value == Some(result.entities.instance[key][0].text)
    ensures r.Success? && r.value.airport.Some? ==>
              r.value.value.Some? && r.value.value.value != "" &&
              result.entities.typed[key][0].airport.Some? &&
              var a := result.entities.typed[key][0].airport.value;
              |a[0]| > 0 && r.value.airport.value == a[0][0]
    ensures r.Success? && key in result.entities.instance && result.entities.instance[key][0].text != "" &&
            result.entities.typed[key][0].airport.Some? && |result.entities.typed[key][0].airport.value[0]| > 0 ==>
              r.value.airport == Some(result.entities.typed[key][0].airport.value[0][0])
  {
    var e := result.entities;
    if key !in e.instance then Success(Extracted(None, None))
    else if |e.instance[key]| == 0 then Failure(TypeError)
    else
      var text := e.instance[key][0].text;
      if text == "" then Success(Extracted(Some(text), None))
      else if key !in e.typed || |e.typed[key]| == 0 then Failure(TypeError)
      else match e.typed[key][0].airport
        case None => Success(Extracted(Some(text), None))
        case Some(a) =>
          if |a| == 0 then Failure(TypeError)
          else if |a[0]| == 0 then Success(Extracted(Some(text), None))
          else Success(Extracted(Some(text), Some(a[0][0])))
  }

  /**
   * The extraction with every lookup guarded, so that an absent or empty list
   * yields `None` instead of raising.
   */
  function ExtractGuarded(key: string, result: RecognizerResult): (r: Extracted)
    ensures key !in result.entities.instance ==> r == Extracted(None, None)
    ensures r.airport.Some? ==> r.value.Some? && r.value.value != ""
  {
    var e := result.entities;
    var value := if key in e.instance && |e.instance[key]| > 0 then Some(e.instance[key][0].text) else None;
    var airport :=
      if value.Some? && value.value != "" && key in e.typed && |e.typed[key]| > 0 then
        match e.typed[key][0].airport
        case Some(a) => if |a| > 0 && |a[0]| > 0 then Some(a[0][0]) else None
        case None => None
      else None;
    Extracted(value, airport)
  }

  /** Where the unguarded extraction does not raise, it agrees with the guarded one. */
  lemma ExtractAgreesWithGuarded(key: string, result: RecognizerResult)
    ensures Extract(key, result).Success? ==> Extract(key, result).value == ExtractGuarded(key, result)
    ensures WellFormedFor(key, result) <==> Extract(key, result).Success?
  {
  }

  /**
   * A `From` match with no typed `From` list makes the unguarded extraction
   * raise, where the guarded one returns the text with no qualifier.
   */
  lemma FromWithoutTypedListRaises()
    ensures var result := RecognizerResult(Entities(map["From" := [InstanceEntry("Taipei")]], map[], None));
            GetFromEntities(result) == Failure(TypeError) &&
            ExtractGuarded("From", result) == Extracted(Some("Taipei"), None)
  {
  }

  /** The origin station and its qualifier (`from`, `airport`). */
  function GetFromEntities(result: RecognizerResult): (r: Result<Extracted, Fault>)
    ensures r.Failure? <==> !WellFormedFor("From", result)
    ensures r.Success? ==> r.value == ExtractGuarded("From", result)
  {
    Extract("From", result)
  }

  /** The destination and its qualifier (`to`, `airport`). */
  function GetToEntities(result: RecognizerResult): (r: Result<Extracted, Fault>)
    ensures r.Failure? <==> !WellFormedFor("To", result)
    ensures r.Success? ==> r.value == ExtractGuarded("To", result)
  {
    Extract("To", result)
  }

  /** The incident position and its qualifier. */
  function GetPositionEntities(result: RecognizerResult): (r: Result<Extracted, Fault>)
    ensures r.Failure? <==> !WellFormedFor("Position", result)
    ensures r.Success? ==> r.value == ExtractGuarded("Position", result)
  {
    Extract("Position", result)
  }

  /** The people affected: read from the `Position` entity, as the script does. */
  function GetPeopleEntities(result: RecognizerResult): (r: Result<Extracted, Fault>)
    ensures r.Failure? <==> !WellFormedFor("Position", result)
    ensures r.Success? ==> r.value == ExtractGuarded("Position", result)
  {
    Extract("Position", result)
  }

  /** The incident details: read from the `Position` entity, as the script does. */
  function GetDetailsEntities(result: RecognizerResult): (r: Result<Extracted, Fault>)
    ensures r.Failure? <==> !WellFormedFor("Position", result)
    ensures r.Success? ==> r.value == ExtractGuarded("Position", result)
  {
    Extract("Position", result)
  }

  /** The hazard-report answer: read from the `Position` entity, as the script does. */
  function GetInformEntities(result: RecognizerResult): (r: Result<Extracted, Fault>)
    ensures r.Failure? <==> !WellFormedFor("Position", result)
    ensures r.Success? ==> r.value == ExtractGuarded("Position", result)
  {
    Extract("Position", result)
  }

  /**
   * The people, details and inform extractors all read the `Position` entity,
   * so for every result they return what the position extractor returns.
   */
  lemma PeopleDetailsInformEqualPosition(result: RecognizerResult)
    ensures GetPeopleEntities(result) == GetPositionEntities(result)
    ensures GetDetailsEntities(result) == GetPositionEntities(result)
    ensures GetInformEntities(result) == GetPositionEntities(result)
  {
  }

  /**
   * The part of `s` before its first 'T' (the whole of `s` when it has none):
   * a prefix of `s` with no 'T', followed in `s` by a 'T' or by nothing.
   */
  function DatePart(s: string): (r: string)
    ensures r <= s
    ensures 'T' !in r
    ensures |r| < |s| ==> s[|r|] == 'T'
  {
    if s == [] || s[0] == 'T' then []
    else [s[0]] + DatePart(s[1..])
  }

  /**
   * The conditions `DatePart` states determine its result: any prefix of `s`
   * with no 'T' that stops at a 'T' or at the end is the date part.
   */
  lemma {:induction false} DatePartUnique(s: string, r: string)
    requires r <= s && 'T' !in r
    requires |r| < |s| ==> s[|r|] == 'T'
    ensures DatePart(s) == r
  {
    if r != [] {
      assert r[0] in r;
      DatePartUnique(s[1..], r[1..]);
    }
  }

  /** Without a 'T', the date part is the whole expression. */
  lemma DatePartWithoutT(s: string)
    requires 'T' !in s
    ensures DatePart(s) == s
  {
    DatePartUnique(s, s);
  }

  /**
   * The date of the first `datetime` entity: nothing when there is no such
   * entity, when its timex list is missing or empty, or when the first timex is
   * the empty string; otherwise the part of the first timex before any 'T'.
   */
  function GetDateTime(result: RecognizerResult): (r: Option<string>)
    ensures var dt := result.entities.datetime;
            r.Some? <==> dt.Some? && |dt.value| > 0 && dt.value[0].timex.Some? &&
                         |dt.value[0].timex.value| > 0 && dt.value[0].timex.value[0] != ""
    ensures r.Some? ==>
              var timex := result.entities.datetime.value[0].timex.value[0];
              r.value <= timex && 'T' !in r.value && (|r.value| < |timex| ==> timex[|r.value|] == 'T')
  {
    match result.entities.datetime
    case None => None
    case Some(dt) =>
      if |dt| == 0 then None
      else match dt[0].timex
        case None => None
        case Some(timex) =>
          if |timex| == 0 || timex[0] == "" then None
          else Some(DatePart(timex[0]))
  }

  /**
   * A timex that is a time of day alone (it starts with 'T') yields the empty
   * string, which the report dialog treats as an unset date.
   */
  lemma TimeOnlyTimexYieldsEmptyDate(result: RecognizerResult)
    requires GetDateTime(result).Some?
    requires result.entities.datetime.value[0].timex.value[0][0] == 'T'
    ensures GetDateTime(result) == Some("")
    ensures !Truthy(Text(GetDateTime(result).value))
  {
  }

  /** The example of a date with a time: "2023-11-15T08:00" gives "2023-11-15". */
  lemma DateTimeExample()
    ensures GetDateTime(RecognizerResult(Entities(map[], map[], Some([DateTimeEntry(Some(["2023-11-15T08:00"]))]))))
            == Some("2023-11-15")
  {
    DatePartUnique("2023-11-15T08:00", "2023-11-15");
  }
}
